=== FILE: README.md ===
# Hotel booking backend — domain rules in Dafny

This project models the request handlers of a small hotel-booking backend
(FastAPI + SQLAlchemy): user registration and login, creation of hotels,
rooms and time-bounded room offers, booking an offer from its finite stock,
recording offer views, and a per-user favorites list.

The database is one immutable value `Store.Db` holding one table per
record kind. Users, hotels, rooms and offers live in auto-increment tables
(`Schema.Table`: rows keyed by id, plus the next id to hand out). Favorites
are a sequence of (user, room) rows in insertion order. Views are an
append-only log. Every state-changing route is a pure function from a `Db` and the
request to a `Reply`. The read-only routes, login and the favorites listing, return
just their answer. A `Reply` holds the next `Db` and either a success status with
a payload or an `Error`. The error carries the exact status code and detail
text the route raises.

Booking reads the offer row `FOR UPDATE`, so bookings of one offer commit one
after another. Each booking is therefore one atomic step. `Booking.BookAll`
runs a burst of N such steps against one offer. `Requests.Run` runs any
sequence of requests against the whole backend. Its view requests use the corrected
view route `Hotels.RecordView` (see Findings). The route as written changes nothing,
so every lemma about runs holds for it as well.

Things outside the program are parameters:
- The clock is a `now: Timestamp` argument.
- The price curve's jittered value at booking time is a `jittered: real` argument. It can be any real.
- The email normaliser applied when a registration body is parsed, the password hasher, the verifier and the token issuer are the fields of `Users.Libraries`.
- The authenticated user is a `Caller`, meaning the id and role that `get_current_user` resolved. In runs of requests (`Requests.Apply`), a caller that is not a stored user with that role is refused before the route runs, which models the 401 from `get_current_user`.

Modules follow the source: `Users` (routes/users.py), `Hotels`
(routes/hotels.py), `Favorites` (routes/favorites.py), `Schema` (models.py),
`Store` (the database state and its integrity constraints) and `Responses`
(HTTP outcomes). `Booking` and `Requests` hold the lemmas about runs.

Two facts about the code shape what is proved:
- Offer creation does not check that `available` is non-negative. So "stock
  never goes negative" is proved for offers that start non-negative.
- The websocket does not send an error frame for an unknown offer. It calls
  the view-recording route first (routes/hotels.py:119), whose 404 is caught
  by the generic handler and closes the socket.

## Model

| member | source | states |
|---|---|---|
| Users.CreateUser | routes/users.py:16-34 | The email is checked and stored in its normalised form. A taken email is refused with 400 "Email already registered" before the role is looked at. A role other than "regular" or "business" is refused with 400 "Invalid role". Both refusals leave the database unchanged. Otherwise exactly one user is added under a fresh id, holding the normalised email, the role and `hash(password)`, and no other table changes. |
| Users.Login | routes/users.py:36-46 | Succeeds exactly when some user with that email has a stored hash that the password verifies against. It then returns a bearer token issued for the email. Every failure, including an unknown email, is 401 "Invalid credentials". |
| Users.CreateUserKeepsUsersValid | routes/users.py:19-28 | Registration keeps emails unique and every stored role in the whitelist. |
| Users.SecondRegistrationRefused | routes/users.py:19-22 | After a successful registration, registering any address with the same normalised form is refused with 400. |
| Users.LoginChecksTheStoredHash | routes/users.py:38-42 | With unique emails, login for a stored user succeeds iff the password verifies against that user's own stored hash. |
| Users.RegisterThenLogin | routes/users.py:27-44 | Round trip: after registering, logging in with the normalised email and the same password yields the bearer token for that email, given that the verifier accepts a password against its own hash. |
| Users.RawEmailLoginRefused | routes/users.py:12-14 | Login compares the email as sent. If normalisation changed the registered address and no account holds the typed string, logging in with the address as typed gets 401. |
| Hotels.CreateHotel | routes/hotels.py:16-25 | Succeeds iff the caller's role is "business". Otherwise it is 403 and nothing is stored. On success one hotel is stored under a fresh id, owned by the caller, and nothing else changes. |
| Hotels.CreateRoom | routes/hotels.py:28-39 | Succeeds iff the hotel exists and the caller owns it. A missing hotel and a foreign hotel both give the same 403. On success exactly one room is added and nothing else changes. |
| Hotels.CreateOffer | routes/hotels.py:42-57 | An unknown room gives 404. A room whose hotel row is missing fails with 500, because `hotel.owner_id` is read without a check. A room whose hotel the caller does not own gives 403. Failures change nothing. On success one offer is stored under a fresh id, with `current_price = initial_price`, `popularity_factor = 1.0` and the creation time. |
| Hotels.CreateOfferNeverFailsInternally | routes/hotels.py:49-52 | When every room's hotel exists, offer creation never reaches the unchecked `hotel.owner_id` dereference. Its only failures are then the 404 and the 403. |
| Requests.ReachableOfferCreation | routes/hotels.py:45-52 | In every state reachable from an empty database by any requests, offer creation fails only with 404 or 403. |
| Hotels.DynamicPrice | routes/hotels.py:76 | The clamped price is never below the offer's floor or below the curve value, and it is one of the two. So it is exactly their maximum, whatever the curve produced. |
| Hotels.BookOffer | routes/hotels.py:79-104 | An unknown offer gives 404 "Offer not found". `available <= 0` gives 400 "Offer is no longer available". Both leave the state unchanged. On success that offer's `available` drops by exactly 1 and stays non-negative, and every other offer, field and table is untouched, including the offers table's id counter. The answer is 200 with a receipt naming the requested offer and the caller. Its price is exactly the clamp `DynamicPrice(offer, jittered)`, so it is never below `min_price`. |
| Hotels.RecordView | routes/hotels.py:146-163 | The view route as evidently intended (see Findings). An unknown offer gives 404 and nothing is recorded. Otherwise exactly one view `(offer_id, now)` is appended after the existing log, offers are unchanged, and the answer is "View recorded". |
| Hotels.RecordViewAsWritten | routes/hotels.py:146-162 | The view route as written. An unknown offer gives 404. For an existing offer the bare-string insert fails with 500. Either way nothing is recorded. |
| Hotels.RecordViewAsWrittenDiffers | routes/hotels.py:155-161 | The two versions agree on unknown offers. On every existing offer the route as written answers 500 and leaves the log as it was, while the intended route appends one view. |
| Hotels.RecordViewCounts | routes/hotels.py:155-161 | A recorded view raises its offer's view count by one and leaves every other offer's count unchanged. |
| Booking.BookAllOutcome | routes/hotels.py:86-104 | Take N serialized bookings of an offer with stock `a`. The first `min(N, a)` succeed and the rest (or all N when `a <= 0`) get 400 "Offer is no longer available". The stock drops by exactly the number of successes and never below zero when it started non-negative. Each receipt carries the offer id, its requester, and exactly the clamped price for that request's own curve value, which is at or above the floor. Nothing else changes. |
| Booking.BookAllStock | routes/hotels.py:89-96 | The state side of a run of bookings: which requests succeed, the 400s after the stock runs out, the exact final stock, and the unchanged rest of the database, including the offers table's id counter. |
| Booking.BookAllReceipts | routes/hotels.py:95-104 | The answer side of a run of bookings: every successful receipt names the offer and its requester and carries `DynamicPrice(offer, jittered)` for its own request. The proof relies on the floor price staying fixed between bookings, which the frame of `Booking.BookAllStock` guarantees. |
| Booking.BookAllMissingOffer | routes/hotels.py:89-91 | Every booking of a missing offer gets 404 and the database is unchanged. |
| Favorites.AddFavorite | routes/favorites.py:10-29 | An unknown room gives 404 "Room not found". An already present (caller, room) pair gives 400 "Room already in favorites". Both change nothing. Otherwise exactly that pair is appended (201) and nothing else changes. |
| Favorites.RemoveFavorite | routes/favorites.py:31-42 | An absent (caller, room) pair gives 404 "Favorite not found". Otherwise one row goes (204). Every other pair's presence, other users' and the caller's other rooms alike, is unchanged. |
| Favorites.Delete | routes/favorites.py:40 | Deleting the found row removes exactly one occurrence of the pair: the new multiset of rows equals the old one minus that pair. |
| Favorites.ListFavorites | routes/favorites.py:44-50 | A room id is listed iff the (caller, room) pair is stored. |
| Favorites.RoomsOf | routes/favorites.py:46-50 | Filtering the rows by user yields exactly the rooms paired with that user, and never more entries than there are rows. |
| Favorites.AddKeepsNoDuplicates | routes/favorites.py:19-28 | Adding never creates a duplicate (user, room) row. |
| Favorites.RemoveKeepsNoDuplicates | routes/favorites.py:33-41 | After a remove the table still has no duplicates, and the removed pair is gone entirely. |
| Favorites.AddThenList | routes/favorites.py:26-50 | After a successful add, the room appears in the caller's listing. |
| Favorites.AddThenRemove | routes/favorites.py:26-41 | Round trip: a successful add followed by a remove of the same room answers 204 and restores the exact original database. |
| Favorites.ListingHasNoDuplicates | routes/favorites.py:46-50 | A listing taken from a duplicate-free table names each room once. |
| Requests.RegisterKeepsValid | routes/users.py:19-34 | Registration keeps every integrity constraint. |
| Requests.CreateHotelKeepsValid | routes/hotels.py:19-24 | Hotel creation by an authenticated caller keeps every integrity constraint. In particular the new hotel's owner is a stored user (the `owner_id` foreign key). |
| Requests.CreateRoomKeepsValid | routes/hotels.py:31-38 | Room creation keeps every integrity constraint; in particular every room's hotel exists. |
| Requests.CreateOfferKeepsValid | routes/hotels.py:45-56 | Offer creation keeps every integrity constraint; in particular every offer's room exists. |
| Requests.BookKeepsValid | routes/hotels.py:89-98 | Booking keeps every integrity constraint. |
| Requests.ViewKeepsValid | routes/hotels.py:149-162 | Recording a view keeps every integrity constraint; in particular every view names an existing offer. |
| Requests.AddFavoriteKeepsValid | routes/favorites.py:13-28 | Adding a favorite keeps every constraint: no duplicate pair, and every favorite names an existing room. |
| Requests.RemoveFavoriteKeepsValid | routes/favorites.py:33-41 | Removing a favorite keeps every integrity constraint. |
| Requests.ApplyKeepsValid | models.py:5-23 | Any single request keeps the constraints of the schema and the routes. These are unique emails, whitelisted roles, hotel owners that are stored users, rooms, offers and views that reference existing rows, favorites that name an existing room, and no duplicate favorites. |
| Requests.RunKeepsValid | models.py:8-19 | Over any sequence of requests, in particular any sequence of registrations, emails stay unique and every hotel's owner stays a stored user. All the other constraints kept by `Requests.ApplyKeepsValid` hold too. |
| Requests.ApplyKeepsStock | routes/hotels.py:92-96 | Any single request leaves an existing offer with non-negative stock still present. Its stock stays non-negative and does not grow, and its other fields are unchanged. |
| Requests.RunKeepsStock | routes/hotels.py:86-98 | However bookings interleave with every other kind of request, an offer whose stock starts non-negative keeps a non-negative stock that never grows, and none of its other fields change. |

## Left out

- `calculate_dynamic_price` curve (routes/hotels.py:67-75): exponential decay from the wall clock plus `random.uniform` jitter is floating-point and random. The curve value is an arbitrary real input, and only the floor clamp is modelled.
- Hotels.BookOffer: the receipt carries the clamped price unrounded; `round(current_price, 2)` (routes/hotels.py:103) is float formatting and is not modelled, so the "not below `min_price`" bound is proved for the unrounded price only.
- The live-quote websocket loop (routes/hotels.py:114-132) is I/O and timing. Its only state effect, the view recorded on connect, is `Hotels.RecordView`.
- The first `record_offer_view` (routes/hotels.py:135-143) is shadowed by the later definition of the same name and is never reached.
- `get_room_offers` (routes/hotels.py:60-64) and `read_users_me` (routes/users.py:48-50) only read and return rows; they have no rule to model.
- database.py and main.py: every route is taken to receive a working `AsyncSession` and to be mounted. As written, `get_db` is wrapped in `@asynccontextmanager` (database.py:27-30), so `Depends(get_db)` would inject the context manager rather than a session.
- Row locking, commit failures and the rollback-to-500 path (routes/hotels.py:87, :106-111): each request is one atomic transition that always commits.
- Bcrypt hashing, password verification and JWT issuance (utils.py) are abstract functions. The token's 30-minute expiry claim is folded into the abstract issuer.
- `get_current_user` (utils.py:43-64): token decoding is abstract and the caller is given as an identity. Runs of requests refuse a caller that is not a stored user by leaving the state unchanged; the 401 answer itself is not returned.
- Request-body validation by the Pydantic schemas, such as rejecting a malformed `EmailStr`, is not modelled. The address rewriting that `EmailStr` performs is the abstract `normalizeEmail`.
- models.py defines only `User` and `Hotel`, although the routes import `Room`, `RoomOffer` and `Favorite` from it, and no model declares the `offer_views` table. Likewise schemas.py defines no `HotelCreate`, `RoomCreate` or `RoomOfferCreate`, although routes/hotels.py:3 imports them. The fields of these records and request bodies are taken from how the routes use them. A room's columns other than `hotel_id` are one opaque value. An offer's `created_at` is the clock reading at creation.
- `scalar_one_or_none` raising on several matching rows is not modelled. The constraints proved by `Requests.RunKeepsValid` (unique emails, no duplicate favorites) rule such states out.

## Findings

| source | as written | input that shows it | evidently intended | confidence | as-written member | corrected member |
|---|---|---|---|---|---|---|
| routes/hotels.py:155-161 | The view insert passes a bare SQL string to `AsyncSession.execute`. SQLAlchemy 2.x, which `async_sessionmaker` in database.py:5 requires, refuses a plain string with `ArgumentError`. Nothing catches it, so the route answers 500 and records nothing. The websocket call at :119 raises the same error, and its handler closes the socket. | POST /rooms/offers/1/view when offer 1 exists | Append one view `(offer_id, now)` and answer "View recorded" | high (not executed) | Hotels.RecordViewAsWritten | Hotels.RecordView |

=== FILE: booking.dfy ===
/** Runs of bookings against one offer.

    The offer row is read `FOR UPDATE`, so concurrent bookings of one offer
    commit one after another; a burst of N requests is therefore a sequence of
    N atomic `BookOffer` steps, each seeing the state the previous one left.
 */
module Booking {
  import opened Schema
  import opened Responses
  import opened Store
  import opened Hotels

  /** One booking attempt: who asks, and the curve value at that instant. */
  datatype BookingRequest = BookingRequest(caller: Caller, jittered: real)

  /** Applies the requests in order to the same offer; returns the final state
      and every request's answer. */
  function BookAll(db: Db, offerId: Id, reqs: seq<BookingRequest>): (r: (Db, seq<Result<Receipt>>))
    ensures |r.1| == |reqs|
    decreases reqs
  {
    if reqs == [] then (db, [])
    else
      var step := BookOffer(db, reqs[0].caller, offerId, reqs[0].jittered);
      var rest := BookAll(step.db, offerId, reqs[1..]);
      (rest.0, [step.result] + rest.1)
  }

  /** Number of answers that are successes. */
  function Successes(outs: seq<Result<Receipt>>): (n: nat)
    ensures n <= |outs|
  {
    if outs == [] then 0
    else (if outs[0].Ok? then 1 else 0) + Successes(outs[1..])
  }

  function Min(a: int, b: int): int
  {
    if a <= b then a else b
  }

  /** The number of units N requests manage to book from a stock of `a`. */
  function Won(a: int, n: nat): (w: nat)
  {
    if a <= 0 then 0 else Min(a, n)
  }

  /** The state side of a run: the first `Won(a, N)` requests succeed, every
      later one is told the offer is sold out, and the stock drops by exactly
      the number of successes while nothing else changes. */
  lemma {:induction false} BookAllStock(db: Db, offerId: Id, reqs: seq<BookingRequest>)
    requires offerId in db.offers.rows
    decreases reqs
    ensures
      var offer := db.offers.rows[offerId];
      var won := Won(offer.available, |reqs|);
      var r := BookAll(db, offerId, reqs);
      && Successes(r.1) == won
      && (forall i :: 0 <= i < |reqs| ==> (r.1[i].Ok? <==> i < won))
      && (forall i :: won <= i < |reqs| ==> r.1[i] == Err(SoldOut))
      && r.0.offers.rows.Keys == db.offers.rows.Keys
      && r.0.offers.next == db.offers.next
      && r.0.offers.rows[offerId] == offer.(available := offer.available - won)
      && (forall other :: other in db.offers.rows && other != offerId ==>
            r.0.offers.rows[other] == db.offers.rows[other])
      && r.0 == db.(offers := r.0.offers)
  {
    if reqs != [] {
      var step := BookOffer(db, reqs[0].caller, offerId, reqs[0].jittered);
      BookAllStock(step.db, offerId, reqs[1..]);
      var rest := BookAll(step.db, offerId, reqs[1..]);
      var r := BookAll(db, offerId, reqs);
      assert r.1 == [step.result] + rest.1;
      assert r.1[1..] == rest.1;
      forall i | 1 <= i < |reqs| ensures r.1[i] == rest.1[i - 1] {
      }
    }
  }

  /** The answer side of a run: each successful request's receipt names the
      offer, its requester, and the clamped price for its own curve value. */
  lemma {:induction false} BookAllReceipts(db: Db, offerId: Id, reqs: seq<BookingRequest>)
    requires offerId in db.offers.rows
    decreases reqs
    ensures
      var offer := db.offers.rows[offerId];
      var r := BookAll(db, offerId, reqs);
      forall i :: 0 <= i < |reqs| && r.1[i].Ok? ==>
        && r.1[i].value.offerId == offerId
        && r.1[i].value.userId == reqs[i].caller.id
        && r.1[i].value.bookedPrice == DynamicPrice(offer, reqs[i].jittered)
  {
    if reqs != [] {
      var offer := db.offers.rows[offerId];
      var step := BookOffer(db, reqs[0].caller, offerId, reqs[0].jittered);
      BookAllReceipts(step.db, offerId, reqs[1..]);
      var rest := BookAll(step.db, offerId, reqs[1..]);
      var r := BookAll(db, offerId, reqs);
      assert r.1 == [step.result] + rest.1;
      assert step.db.offers.rows[offerId].minPrice == offer.minPrice;
      forall i | 1 <= i < |reqs| ensures r.1[i] == rest.1[i - 1] && reqs[i] == reqs[1..][i - 1] {
      }
    }
  }

  /** The first `Won(a, N)` requests succeed, every later one is told the offer
      is sold out, the stock drops by exactly the number of successes (so a
      non-negative stock stays non-negative), each receipt names the offer,
      its requester and the clamped price for that request's curve value,
      and nothing but the offer's counter changes. */
  lemma BookAllOutcome(db: Db, offerId: Id, reqs: seq<BookingRequest>)
    requires offerId in db.offers.rows
    ensures
      var offer := db.offers.rows[offerId];
      var won := Won(offer.available, |reqs|);
      var r := BookAll(db, offerId, reqs);
      && Successes(r.1) == won
      && (forall i :: 0 <= i < |reqs| ==> (r.1[i].Ok? <==> i < won))
      && (forall i :: won <= i < |reqs| ==> r.1[i] == Err(SoldOut))
      && (forall i :: 0 <= i < won ==>
            r.1[i].value.offerId == offerId && r.1[i].value.userId == reqs[i].caller.id
            && r.1[i].value.bookedPrice == DynamicPrice(offer, reqs[i].jittered)
            && r.1[i].value.bookedPrice >= offer.minPrice)
      && r.0.offers.rows.Keys == db.offers.rows.Keys
      && r.0.offers.next == db.offers.next
      && r.0.offers.rows[offerId] == offer.(available := offer.available - won)
      && (offer.available >= 0 ==> r.0.offers.rows[offerId].available >= 0)
      && (forall other :: other in db.offers.rows && other != offerId ==>
            r.0.offers.rows[other] == db.offers.rows[other])
      && r.0 == db.(offers := r.0.offers)
  {
    BookAllStock(db, offerId, reqs);
    BookAllReceipts(db, offerId, reqs);
  }

  /** Booking an offer that does not exist answers 404 to every request and changes nothing. */
  lemma {:induction false} BookAllMissingOffer(db: Db, offerId: Id, reqs: seq<BookingRequest>)
    requires offerId !in db.offers.rows
    decreases reqs
    ensures var r := BookAll(db, offerId, reqs);
      r.0 == db && Successes(r.1) == 0
      && forall i :: 0 <= i < |reqs| ==> r.1[i] == Err(OfferNotFound)
  {
    if reqs != [] {
      BookAllMissingOffer(db, offerId, reqs[1..]);
      var r := BookAll(db, offerId, reqs);
      forall i | 1 <= i < |reqs| ensures r.1[i] == BookAll(db, offerId, reqs[1..]).1[i - 1] {
      }
    }
  }
}

=== FILE: favorites.dfy ===
/** A user's favorite rooms (routes/favorites.py): a table of (user, room)
    rows kept in insertion order. */
module Favorites {
  import opened Schema
  import opened Responses
  import opened Store

  const AlreadyFavorite := Error(BAD_REQUEST, "Room already in favorites")
  const FavoriteNotFound := Error(NOT_FOUND, "Favorite not found")

  /** Deletes the first row equal to `x`; a sequence without `x` is returned as is. */
  function Delete(s: seq<Favorite>, x: Favorite): (r: seq<Favorite>)
    ensures multiset(r) == multiset(s) - multiset{x}
    ensures |r| == if x in s then |s| - 1 else |s|
    ensures forall f :: f != x ==> (f in r <==> f in s)
  {
    if s == [] then []
    else if s[0] == x then
      assert s == [s[0]] + s[1..];
      s[1..]
    else
      assert s == [s[0]] + s[1..];
      [s[0]] + Delete(s[1..], x)
  }

  /** The rooms of `user`'s rows, in row order. */
  function RoomsOf(s: seq<Favorite>, user: Id): (rooms: seq<Id>)
    ensures forall room :: room in rooms <==> Favorite(user, room) in s
    ensures |rooms| <= |s|
  {
    if s == [] then []
    else if s[0].userId == user then [s[0].roomId] + RoomsOf(s[1..], user)
    else RoomsOf(s[1..], user)
  }

  /** POST /favorites/{room_id}. */
  function AddFavorite(db: Db, caller: Caller, roomId: Id): (r: Reply<string>)
    ensures roomId !in db.rooms.rows ==> r == Reply(db, Err(RoomNotFound))
    ensures roomId in db.rooms.rows && Favorite(caller.id, roomId) in db.favorites ==>
      r == Reply(db, Err(AlreadyFavorite))
    ensures r.result.Ok? <==> roomId in db.rooms.rows && Favorite(caller.id, roomId) !in db.favorites
    ensures r.result.Ok? ==>
      && r.result == Ok(CREATED, "Room added to favorites")
      && multiset(r.db.favorites) == multiset(db.favorites) + multiset{Favorite(caller.id, roomId)}
      && |r.db.favorites| == |db.favorites| + 1
      && r.db.favorites[..|db.favorites|] == db.favorites
      && r.db == db.(favorites := r.db.favorites)
  {
    if roomId !in db.rooms.rows then
      Reply(db, Err(RoomNotFound))
    else if Favorite(caller.id, roomId) in db.favorites then
      Reply(db, Err(AlreadyFavorite))
    else
      Reply(db.(favorites := db.favorites + [Favorite(caller.id, roomId)]), Ok(CREATED, "Room added to favorites"))
  }

  /** DELETE /favorites/{room_id}. The room itself is not looked up. */
  function RemoveFavorite(db: Db, caller: Caller, roomId: Id): (r: Reply<()>)
    ensures r.result.Ok? <==> Favorite(caller.id, roomId) in db.favorites
    ensures r.result.Err? ==> r == Reply(db, Err(FavoriteNotFound))
    ensures r.result.Ok? ==>
      && r.result.status == NO_CONTENT
      && |r.db.favorites| == |db.favorites| - 1
      && (forall f :: f != Favorite(caller.id, roomId) ==> (f in r.db.favorites <==> f in db.favorites))
      && r.db == db.(favorites := r.db.favorites)
  {
    var pair := Favorite(caller.id, roomId);
    if pair !in db.favorites then
      Reply(db, Err(FavoriteNotFound))
    else
      Reply(db.(favorites := Delete(db.favorites, pair)), Ok(NO_CONTENT, ()))
  }

  /** GET /favorites/ : the caller's room ids. */
  function ListFavorites(db: Db, caller: Caller): (rooms: seq<Id>)
    ensures forall room :: room in rooms <==> Favorite(caller.id, room) in db.favorites
  {
    RoomsOf(db.favorites, caller.id)
  }

  /** A sequence without duplicates holds each of its elements exactly once. */
  lemma {:induction false} NoDuplicatesCountsOne(s: seq<Favorite>, x: Favorite)
    requires NoDuplicates(s)
    ensures multiset(s)[x] == if x in s then 1 else 0
  {
    if s != [] {
      assert s == [s[0]] + s[1..];
      assert NoDuplicates(s[1..]) by {
        forall i, j | 0 <= i < |s[1..]| && 0 <= j < |s[1..]| && i != j
          ensures s[1..][i] != s[1..][j]
        {
          assert s[1..][i] == s[i + 1] && s[1..][j] == s[j + 1];
        }
      }
      NoDuplicatesCountsOne(s[1..], x);
      if s[0] == x {
        assert x !in s[1..] by {
          forall k | 0 <= k < |s[1..]| ensures s[1..][k] != x {
            assert s[1..][k] == s[k + 1];
          }
        }
      }
    }
  }

  /** Conversely, a sequence holding each element at most once has no duplicates. */
  lemma CountsOneNoDuplicates(s: seq<Favorite>)
    requires forall x :: multiset(s)[x] <= 1
    ensures NoDuplicates(s)
  {
    forall i, j | 0 <= i < |s| && 0 <= j < |s| && i != j
      ensures s[i] != s[j]
    {
      var lo, hi := if i < j then i else j, if i < j then j else i;
      assert s == s[..lo] + [s[lo]] + s[lo + 1..hi] + [s[hi]] + s[hi + 1..];
      assert multiset(s) == multiset(s[..lo]) + multiset{s[lo]} + multiset(s[lo + 1..hi])
        + multiset{s[hi]} + multiset(s[hi + 1..]);
      assert multiset(s)[s[lo]] >= multiset{s[lo]}[s[lo]] + multiset{s[hi]}[s[lo]];
    }
  }

  /** A successful add never creates a duplicate pair. */
  lemma AddKeepsNoDuplicates(db: Db, caller: Caller, roomId: Id)
    requires NoDuplicates(db.favorites)
    ensures NoDuplicates(AddFavorite(db, caller, roomId).db.favorites)
  {
    var r := AddFavorite(db, caller, roomId);
    if r.result.Ok? {
      var pair := Favorite(caller.id, roomId);
      forall x ensures multiset(r.db.favorites)[x] <= 1 {
        NoDuplicatesCountsOne(db.favorites, x);
      }
      CountsOneNoDuplicates(r.db.favorites);
    }
  }

  /** A successful remove takes the pair out completely and keeps the rest duplicate-free. */
  lemma RemoveKeepsNoDuplicates(db: Db, caller: Caller, roomId: Id)
    requires NoDuplicates(db.favorites)
    ensures NoDuplicates(RemoveFavorite(db, caller, roomId).db.favorites)
    ensures Favorite(caller.id, roomId) !in RemoveFavorite(db, caller, roomId).db.favorites
  {
    var r := RemoveFavorite(db, caller, roomId);
    var pair := Favorite(caller.id, roomId);
    forall x ensures multiset(r.db.favorites)[x] <= 1 {
      NoDuplicatesCountsOne(db.favorites, x);
    }
    NoDuplicatesCountsOne(db.favorites, pair);
    assert multiset(r.db.favorites)[pair] == 0;
    CountsOneNoDuplicates(r.db.favorites);
  }

  /** After a successful add the room shows up in the caller's listing. */
  lemma AddThenList(db: Db, caller: Caller, roomId: Id)
    requires AddFavorite(db, caller, roomId).result.Ok?
    ensures roomId in ListFavorites(AddFavorite(db, caller, roomId).db, caller)
  {
    var r := AddFavorite(db, caller, roomId);
    assert r.db.favorites[|db.favorites|] == Favorite(caller.id, roomId);
  }

  /** Deleting a row that was just appended gives back the original rows. */
  lemma {:induction false} DeleteAppended(s: seq<Favorite>, x: Favorite)
    requires x !in s
    ensures Delete(s + [x], x) == s
  {
    if s != [] {
      assert (s + [x])[1..] == s[1..] + [x];
      DeleteAppended(s[1..], x);
    }
  }

  /** Round trip: adding a favorite and then removing it restores the favorites table exactly. */
  lemma AddThenRemove(db: Db, caller: Caller, roomId: Id)
    requires AddFavorite(db, caller, roomId).result.Ok?
    ensures var added := AddFavorite(db, caller, roomId).db;
      RemoveFavorite(added, caller, roomId) == Reply(db, Ok(NO_CONTENT, ()))
  {
    var added := AddFavorite(db, caller, roomId).db;
    var pair := Favorite(caller.id, roomId);
    assert added.favorites == db.favorites + [pair];
    assert pair in added.favorites;
    DeleteAppended(db.favorites, pair);
  }

  /** A listing taken from a duplicate-free table names each room once. */
  lemma {:induction false} ListingHasNoDuplicates(s: seq<Favorite>, user: Id)
    requires NoDuplicates(s)
    ensures NoDuplicates(RoomsOf(s, user))
  {
    if s != [] {
      assert NoDuplicates(s[1..]) by {
        forall i, j | 0 <= i < |s[1..]| && 0 <= j < |s[1..]| && i != j
          ensures s[1..][i] != s[1..][j]
        {
          assert s[1..][i] == s[i + 1] && s[1..][j] == s[j + 1];
        }
      }
      ListingHasNoDuplicates(s[1..], user);
      if s[0].userId == user {
        var rest := RoomsOf(s[1..], user);
        assert s[0].roomId !in rest;
        var out := [s[0].roomId] + rest;
        forall i, j | 0 <= i < |out| && 0 <= j < |out| && i != j
          ensures out[i] != out[j]
        {
          if i > 0 && j > 0 {
            assert out[i] == rest[i - 1] && out[j] == rest[j - 1];
          } else if i == 0 {
            assert out[j] == rest[j - 1];
          } else {
            assert out[i] == rest[i - 1];
          }
        }
      }
    }
  }
}

=== FILE: hotels.dfy ===
/** Hotels, rooms, offers, booking and view recording (routes/hotels.py).

    The price curve itself (exponential decay driven by the wall clock plus a
    random jitter) is not modelled; a booking receives the jittered value the
    curve produced at that instant as an arbitrary real, and only the clamp to
    the offer's floor price is kept.
 */
module Hotels {
  import opened Schema
  import opened Responses
  import opened Store

  datatype HotelCreate = HotelCreate(
    name: string,
    address: string,
    description: Nullable<string>,
    rating: Nullable<real>)

  datatype RoomCreate = RoomCreate(hotelId: Id, details: string)

  datatype RoomOfferCreate = RoomOfferCreate(
    roomId: Id,
    startDate: Timestamp,
    endDate: Timestamp,
    initialPrice: real,
    minPrice: real,
    available: int)

  /** The body returned by a successful booking. */
  datatype Receipt = Receipt(offerId: Id, userId: Id, bookedPrice: real)

  /** The body returned by a recorded view. */
  datatype ViewRecorded = ViewRecorded(detail: string, offerId: Id)

  const NotBusiness := Error(FORBIDDEN, "Only business users can create hotels")
  const NotYourHotel := Error(FORBIDDEN, "You can only add rooms to your own hotels")
  const NotYourRoom := Error(FORBIDDEN, "You can only add offers to your own rooms")
  const OfferNotFound := Error(NOT_FOUND, "Offer not found")
  const SoldOut := Error(BAD_REQUEST, "Offer is no longer available")

  /** POST / : only business users may create a hotel, and they own it. */
  function CreateHotel(db: Db, caller: Caller, h: HotelCreate): (r: Reply<Id>)
    ensures r.result.Ok? <==> caller.role == BusinessRole
    ensures r.result.Err? ==> r == Reply(db, Err(NotBusiness))
    ensures r.result.Ok? ==>
      var id := r.result.value;
      && id !in db.hotels.rows
      && r.db.hotels.rows == db.hotels.rows[id := Hotel(h.name, h.address, h.description, h.rating, caller.id)]
      && r.db.hotels.rows[id].ownerId == caller.id
      && r.db == db.(hotels := r.db.hotels)
  {
    if caller.role != BusinessRole then
      Reply(db, Err(NotBusiness))
    else
      var (hotels', id) := Insert(db.hotels, Hotel(h.name, h.address, h.description, h.rating, caller.id));
      Reply(db.(hotels := hotels'), Ok(OK, id))
  }

  /** The caller owns the hotel with this id, which exists. */
  predicate OwnsHotel(db: Db, caller: Caller, hotelId: Id)
  {
    hotelId in db.hotels.rows && db.hotels.rows[hotelId].ownerId == caller.id
  }

  /** POST /rooms/ : a missing hotel and someone else's hotel are both refused with 403. */
  function CreateRoom(db: Db, caller: Caller, room: RoomCreate): (r: Reply<Id>)
    ensures r.result.Ok? <==> OwnsHotel(db, caller, room.hotelId)
    ensures r.result.Err? ==> r == Reply(db, Err(NotYourHotel))
    ensures r.result.Ok? ==>
      var id := r.result.value;
      && id !in db.rooms.rows
      && r.db.rooms.rows == db.rooms.rows[id := Room(room.hotelId, room.details)]
      && |r.db.rooms.rows| == |db.rooms.rows| + 1
      && r.db == db.(rooms := r.db.rooms)
  {
    if room.hotelId !in db.hotels.rows || db.hotels.rows[room.hotelId].ownerId != caller.id then
      Reply(db, Err(NotYourHotel))
    else
      var (rooms', id) := Insert(db.rooms, Room(room.hotelId, room.details));
      Reply(db.(rooms := rooms'), Ok(OK, id))
  }

  /** The offer row a successful creation stores: priced at its initial price,
      with neutral popularity, stamped with the creation time. */
  function NewOffer(o: RoomOfferCreate, now: Timestamp): RoomOffer
  {
    RoomOffer(o.roomId, o.startDate, o.endDate, o.initialPrice, o.initialPrice, o.minPrice, 1.0, now, o.available)
  }

  /** POST /rooms/offers/ : unknown room is 404, someone else's room is 403.
      The room's hotel is dereferenced without a check, so a room whose hotel
      row is gone makes the route fail with an unhandled exception (500). */
  function CreateOffer(db: Db, caller: Caller, o: RoomOfferCreate, now: Timestamp): (r: Reply<Id>)
    ensures o.roomId !in db.rooms.rows ==> r == Reply(db, Err(RoomNotFound))
    ensures r.result.Ok? <==> o.roomId in db.rooms.rows && OwnsHotel(db, caller, db.rooms.rows[o.roomId].hotelId)
    ensures r.result.Err? ==> r.db == db
    ensures o.roomId in db.rooms.rows && db.rooms.rows[o.roomId].hotelId !in db.hotels.rows ==>
      r == Reply(db, Err(InternalServerError))
    ensures r.result.Err? && o.roomId in db.rooms.rows && db.rooms.rows[o.roomId].hotelId in db.hotels.rows ==>
      r.result.error == NotYourRoom
    ensures r.result.Ok? ==>
      var id := r.result.value;
      && id !in db.offers.rows
      && r.db.offers.rows == db.offers.rows[id := NewOffer(o, now)]
      && r.db.offers.rows[id].currentPrice == o.initialPrice
      && r.db.offers.rows[id].popularityFactor == 1.0
      && r.db == db.(offers := r.db.offers)
  {
    if o.roomId !in db.rooms.rows then
      Reply(db, Err(RoomNotFound))
    else
      var hotelId := db.rooms.rows[o.roomId].hotelId;
      if hotelId !in db.hotels.rows then
        Reply(db, Err(InternalServerError))
      else if db.hotels.rows[hotelId].ownerId != caller.id then
        Reply(db, Err(NotYourRoom))
      else
        var (offers', id) := Insert(db.offers, NewOffer(o, now));
        Reply(db.(offers := offers'), Ok(OK, id))
  }

  /** In a database where every room's hotel exists, creating an offer never
      reaches the unchecked dereference: its only failures are 404 and 403. */
  lemma CreateOfferNeverFailsInternally(db: Db, caller: Caller, o: RoomOfferCreate, now: Timestamp)
    requires RoomsHaveHotels(db)
    ensures var r := CreateOffer(db, caller, o, now);
      r.result.Err? ==> r.result.error == RoomNotFound || r.result.error == NotYourRoom
  {
    if o.roomId in db.rooms.rows {
      assert db.rooms.rows[o.roomId].hotelId in db.hotels.rows;
    }
  }

  /** The final step of `calculate_dynamic_price`: the jittered curve value is
      raised to the offer's floor price when it falls below it. */
  function DynamicPrice(offer: RoomOffer, jittered: real): (p: real)
    ensures p >= offer.minPrice && p >= jittered
    ensures p == jittered || p == offer.minPrice
  {
    if jittered >= offer.minPrice then jittered else offer.minPrice
  }

  /** POST /rooms/offers/{offer_id}/book, one serialized transaction on the
      locked offer row. `jittered` is the curve value at the moment of booking. */
  function BookOffer(db: Db, caller: Caller, offerId: Id, jittered: real): (r: Reply<Receipt>)
    ensures offerId !in db.offers.rows ==> r == Reply(db, Err(OfferNotFound))
    ensures offerId in db.offers.rows && db.offers.rows[offerId].available <= 0 ==>
      r == Reply(db, Err(SoldOut))
    ensures r.result.Ok? <==> offerId in db.offers.rows && db.offers.rows[offerId].available > 0
    ensures r.result.Ok? ==>
      var offer := db.offers.rows[offerId];
      && r.result.value.offerId == offerId
      && r.result.value.userId == caller.id
      && r.result.status == OK
      && r.result.value.bookedPrice == DynamicPrice(offer, jittered)
      && r.result.value.bookedPrice >= offer.minPrice
      && r.db.offers.rows.Keys == db.offers.rows.Keys
      && r.db.offers.next == db.offers.next
      && r.db.offers.rows[offerId] == offer.(available := offer.available - 1)
      && r.db.offers.rows[offerId].available >= 0
      && (forall other :: other in db.offers.rows && other != offerId ==>
            r.db.offers.rows[other] == db.offers.rows[other])
      && r.db == db.(offers := r.db.offers)
  {
    if offerId !in db.offers.rows then
      Reply(db, Err(OfferNotFound))
    else
      var offer := db.offers.rows[offerId];
      if offer.available <= 0 then
        Reply(db, Err(SoldOut))
      else
        var price := DynamicPrice(offer, jittered);
        var offers' := Put(db.offers, offerId, offer.(available := offer.available - 1));
        Reply(db.(offers := offers'), Ok(OK, Receipt(offerId, caller.id, price)))
  }

  /** POST /rooms/offers/{offer_id}/view, also reached from the live-quote
      websocket on connect: check the offer exists, then append one view. */
  function RecordView(db: Db, offerId: Id, now: Timestamp): (r: Reply<ViewRecorded>)
    ensures r.result.Ok? <==> offerId in db.offers.rows
    ensures r.result.Err? ==> r == Reply(db, Err(OfferNotFound))
    ensures r.result.Ok? ==>
      && r.result.value == ViewRecorded("View recorded", offerId)
      && |r.db.views| == |db.views| + 1
      && r.db.views[..|db.views|] == db.views
      && r.db.views[|db.views|] == OfferView(offerId, now)
      && r.db == db.(views := r.db.views)
  {
    if offerId !in db.offers.rows then
      Reply(db, Err(OfferNotFound))
    else
      Reply(db.(views := db.views + [OfferView(offerId, now)]), Ok(OK, ViewRecorded("View recorded", offerId)))
  }

  /** The view route as written: after the existence check the insert hands
      a bare SQL string to `AsyncSession.execute`, which SQLAlchemy 2.x (the
      version `async_sessionmaker` requires) refuses with `ArgumentError`
      before touching the database. No handler catches it, so the answer is
      500 and nothing is recorded. */
  function RecordViewAsWritten(db: Db, offerId: Id, now: Timestamp): (r: Reply<ViewRecorded>)
    ensures r.db == db
    ensures r.result.Err?
    ensures offerId !in db.offers.rows ==> r.result.error == OfferNotFound
    ensures offerId in db.offers.rows ==> r.result.error == InternalServerError
  {
    if offerId !in db.offers.rows then
      Reply(db, Err(OfferNotFound))
    else
      Reply(db, Err(InternalServerError))
  }

  /** The two agree on unknown offers, and disagree on every existing offer:
      the route as written never records a view, the intended one always does. */
  lemma RecordViewAsWrittenDiffers(db: Db, offerId: Id, now: Timestamp)
    ensures offerId !in db.offers.rows ==>
      RecordViewAsWritten(db, offerId, now) == RecordView(db, offerId, now)
    ensures offerId in db.offers.rows ==>
      && RecordViewAsWritten(db, offerId, now).result == Err(InternalServerError)
      && |RecordViewAsWritten(db, offerId, now).db.views| == |db.views|
      && RecordView(db, offerId, now).result.Ok?
      && |RecordView(db, offerId, now).db.views| == |db.views| + 1
  {
  }

  /** Number of logged views of one offer. */
  function ViewCount(views: seq<OfferView>, offerId: Id): (n: nat)
    ensures n <= |views|
  {
    if views == [] then 0
    else ViewCount(views[..|views| - 1], offerId) + (if views[|views| - 1].offerId == offerId then 1 else 0)
  }

  /** A recorded view raises its offer's count by exactly one and no other offer's count. */
  lemma RecordViewCounts(db: Db, offerId: Id, now: Timestamp, other: Id)
    requires offerId in db.offers.rows
    ensures ViewCount(RecordView(db, offerId, now).db.views, other)
      == ViewCount(db.views, other) + (if other == offerId then 1 else 0)
  {
    var views' := RecordView(db, offerId, now).db.views;
    assert views'[..|views'| - 1] == db.views;
  }
}

=== FILE: requests.dfy ===
/** Arbitrary sequences of requests against the whole backend, and the
    integrity constraints every route keeps. */
module Requests {
  import opened Schema
  import opened Store
  import Users
  import Hotels
  import Favorites

  /** One request to any modelled route. Clock readings and curve values are part of the request. */
  datatype Request =
    | Register(user: Users.UserCreate)
    | LogIn(email: string, password: string)
    | PostHotel(caller: Caller, hotel: Hotels.HotelCreate)
    | PostRoom(caller: Caller, room: Hotels.RoomCreate)
    | PostOffer(caller: Caller, offer: Hotels.RoomOfferCreate, now: Timestamp)
    | Book(caller: Caller, offerId: Id, jittered: real)
    | View(offerId: Id, now: Timestamp)
    | AddFavorite(caller: Caller, roomId: Id)
    | RemoveFavorite(caller: Caller, roomId: Id)
    | ListFavorites(caller: Caller)

  /** The state a request leaves behind; read-only routes leave it as it was.
      A route behind `get_current_user` runs only for a caller that is a
      stored user; any other caller is refused with 401 before the route
      body runs, and nothing changes. */
  function Apply(db: Db, lib: Users.Libraries, req: Request): Db
  {
    match req
    case Register(u) => Users.CreateUser(db, lib, u).db
    case LogIn(_, _) => db
    case PostHotel(c, h) => if Authenticated(db, c) then Hotels.CreateHotel(db, c, h).db else db
    case PostRoom(c, room) => if Authenticated(db, c) then Hotels.CreateRoom(db, c, room).db else db
    case PostOffer(c, o, now) => if Authenticated(db, c) then Hotels.CreateOffer(db, c, o, now).db else db
    case Book(c, id, jittered) => if Authenticated(db, c) then Hotels.BookOffer(db, c, id, jittered).db else db
    case View(id, now) => Hotels.RecordView(db, id, now).db
    case AddFavorite(c, room) => if Authenticated(db, c) then Favorites.AddFavorite(db, c, room).db else db
    case RemoveFavorite(c, room) => if Authenticated(db, c) then Favorites.RemoveFavorite(db, c, room).db else db
    case ListFavorites(_) => db
  }

  /** Applies the requests one after another. */
  function Run(db: Db, lib: Users.Libraries, reqs: seq<Request>): Db
    decreases reqs
  {
    if reqs == [] then db else Run(Apply(db, lib, reqs[0]), lib, reqs[1..])
  }

  lemma RegisterKeepsValid(db: Db, lib: Users.Libraries, u: Users.UserCreate)
    requires Valid(db)
    ensures Valid(Users.CreateUser(db, lib, u).db)
  {
    Users.CreateUserKeepsUsersValid(db, lib, u);
  }

  /** The new hotel's owner is the caller, a stored user, so the owner foreign key holds. */
  lemma CreateHotelKeepsValid(db: Db, c: Caller, h: Hotels.HotelCreate)
    requires Valid(db)
    requires Authenticated(db, c)
    ensures Valid(Hotels.CreateHotel(db, c, h).db)
  {
  }

  lemma CreateRoomKeepsValid(db: Db, c: Caller, room: Hotels.RoomCreate)
    requires Valid(db)
    ensures Valid(Hotels.CreateRoom(db, c, room).db)
  {
  }

  lemma CreateOfferKeepsValid(db: Db, c: Caller, o: Hotels.RoomOfferCreate, now: Timestamp)
    requires Valid(db)
    ensures Valid(Hotels.CreateOffer(db, c, o, now).db)
  {
  }

  lemma BookKeepsValid(db: Db, c: Caller, id: Id, jittered: real)
    requires Valid(db)
    ensures Valid(Hotels.BookOffer(db, c, id, jittered).db)
  {
  }

  lemma ViewKeepsValid(db: Db, id: Id, now: Timestamp)
    requires Valid(db)
    ensures Valid(Hotels.RecordView(db, id, now).db)
  {
    var r := Hotels.RecordView(db, id, now);
    if r.result.Ok? {
      forall i | 0 <= i < |r.db.views| ensures r.db.views[i].offerId in r.db.offers.rows {
        if i < |db.views| {
          assert r.db.views[i] == r.db.views[..|db.views|][i];
        }
      }
    }
  }

  lemma AddFavoriteKeepsValid(db: Db, c: Caller, room: Id)
    requires Valid(db)
    ensures Valid(Favorites.AddFavorite(db, c, room).db)
  {
    Favorites.AddKeepsNoDuplicates(db, c, room);
    var r := Favorites.AddFavorite(db, c, room);
    if r.result.Ok? {
      forall i | 0 <= i < |r.db.favorites| ensures r.db.favorites[i].roomId in r.db.rooms.rows {
        if i < |db.favorites| {
          assert r.db.favorites[i] == r.db.favorites[..|db.favorites|][i];
        }
      }
    }
  }

  lemma RemoveFavoriteKeepsValid(db: Db, c: Caller, room: Id)
    requires Valid(db)
    ensures Valid(Favorites.RemoveFavorite(db, c, room).db)
  {
    Favorites.RemoveKeepsNoDuplicates(db, c, room);
    var r := Favorites.RemoveFavorite(db, c, room);
    if r.result.Ok? {
      forall i | 0 <= i < |r.db.favorites| ensures r.db.favorites[i].roomId in r.db.rooms.rows {
        assert r.db.favorites[i] in db.favorites;
      }
    }
  }

  /** Every route keeps every integrity constraint. */
  lemma ApplyKeepsValid(db: Db, lib: Users.Libraries, req: Request)
    requires Valid(db)
    ensures Valid(Apply(db, lib, req))
  {
    var after := Apply(db, lib, req);
    match req {
      case Register(u) => RegisterKeepsValid(db, lib, u);
      case LogIn(_, _) =>
      case PostHotel(c, h) =>
        if Authenticated(db, c) {
          CreateHotelKeepsValid(db, c, h);
        } else {
          assert after == db;
        }
      case PostRoom(c, room) =>
        if Authenticated(db, c) {
          CreateRoomKeepsValid(db, c, room);
        } else {
          assert after == db;
        }
      case PostOffer(c, o, now) =>
        if Authenticated(db, c) {
          CreateOfferKeepsValid(db, c, o, now);
        } else {
          assert after == db;
        }
      case Book(c, id, jittered) =>
        if Authenticated(db, c) {
          BookKeepsValid(db, c, id, jittered);
        } else {
          assert after == db;
        }
      case View(id, now) => ViewKeepsValid(db, id, now);
      case AddFavorite(c, room) =>
        if Authenticated(db, c) {
          AddFavoriteKeepsValid(db, c, room);
        } else {
          assert after == db;
        }
      case RemoveFavorite(c, room) =>
        if Authenticated(db, c) {
          RemoveFavoriteKeepsValid(db, c, room);
        } else {
          assert after == db;
        }
      case ListFavorites(_) =>
    }
  }

  /** From a valid state, any sequence of requests ends in a valid state:
      emails stay unique, roles stay whitelisted, every hotel's owner is a
      stored user, every room, offer, view and favorite points at an existing
      row, and no favorite pair is stored twice. */
  lemma {:induction false} RunKeepsValid(db: Db, lib: Users.Libraries, reqs: seq<Request>)
    requires Valid(db)
    ensures Valid(Run(db, lib, reqs))
    decreases reqs
  {
    if reqs != [] {
      ApplyKeepsValid(db, lib, reqs[0]);
      RunKeepsValid(Apply(db, lib, reqs[0]), lib, reqs[1..]);
    }
  }

  /** In every state reachable from the empty database, creating an offer
      fails only with 404 or 403, never with the unchecked dereference. */
  lemma ReachableOfferCreation(lib: Users.Libraries, reqs: seq<Request>, caller: Caller,
                               o: Hotels.RoomOfferCreate, now: Timestamp)
    ensures var r := Hotels.CreateOffer(Run(EmptyDb(), lib, reqs), caller, o, now);
      r.result.Err? ==> r.result.error == RoomNotFound || r.result.error == Hotels.NotYourRoom
  {
    EmptyDbIsValid();
    RunKeepsValid(EmptyDb(), lib, reqs);
    Hotels.CreateOfferNeverFailsInternally(Run(EmptyDb(), lib, reqs), caller, o, now);
  }

  /** The stock of an offer after some requests: the same row except for its
      counter, which has not grown and is not negative. */
  predicate StockKept(before: RoomOffer, after: RoomOffer)
  {
    after == before.(available := after.available) && 0 <= after.available <= before.available
  }

  /** One request of any kind keeps an existing offer's non-negative stock non-negative
      and changes nothing else in that offer. */
  lemma ApplyKeepsStock(db: Db, lib: Users.Libraries, req: Request, id: Id)
    requires id in db.offers.rows && db.offers.rows[id].available >= 0
    ensures id in Apply(db, lib, req).offers.rows
    ensures StockKept(db.offers.rows[id], Apply(db, lib, req).offers.rows[id])
  {
    var after := Apply(db, lib, req);
    match req {
      case Register(u) =>
        assert after.offers == db.offers;
      case LogIn(_, _) =>
      case PostHotel(c, h) =>
        assert after.offers == db.offers;
      case PostRoom(c, room) =>
        assert after.offers == db.offers;
      case PostOffer(c, o, now) =>
        var r := Hotels.CreateOffer(db, c, o, now);
        if Authenticated(db, c) && r.result.Ok? {
          assert r.result.value != id;
          assert after.offers.rows[id] == db.offers.rows[id];
        } else {
          assert after.offers == db.offers;
        }
      case Book(c, offerId, jittered) =>
      case View(offerId, now) =>
        assert after.offers == db.offers;
      case AddFavorite(c, room) =>
        assert after.offers == db.offers;
      case RemoveFavorite(c, room) =>
        assert after.offers == db.offers;
      case ListFavorites(_) =>
    }
  }

  /** However bookings interleave with other requests, an offer whose stock
      starts non-negative keeps a non-negative stock that never grows, and
      none of its other fields change. */
  lemma {:induction false} RunKeepsStock(db: Db, lib: Users.Libraries, reqs: seq<Request>, id: Id)
    requires id in db.offers.rows && db.offers.rows[id].available >= 0
    ensures id in Run(db, lib, reqs).offers.rows
    ensures StockKept(db.offers.rows[id], Run(db, lib, reqs).offers.rows[id])
    decreases reqs
  {
    if reqs != [] {
      var next := Apply(db, lib, reqs[0]);
      ApplyKeepsStock(db, lib, reqs[0], id);
      RunKeepsStock(next, lib, reqs[1..], id);
    }
  }
}

=== FILE: responses.dfy ===
/** HTTP outcomes of the booking backend's routes.

    A route either answers with a success status and a payload, or raises an
    `HTTPException` carrying a status code and a detail message. Unhandled
    Python exceptions surface as a generic 500.
 */
module Responses {

  /** The error a route raises: status code plus the exact detail text. */
  datatype Error = Error(status: nat, detail: string)

  /** What a route answers: a success status with its payload, or an error. */
  datatype Result<+T> = Ok(status: nat, value: T) | Err(error: Error)

  const OK: nat := 200
  const CREATED: nat := 201
  const NO_CONTENT: nat := 204
  const BAD_REQUEST: nat := 400
  const UNAUTHORIZED: nat := 401
  const FORBIDDEN: nat := 403
  const NOT_FOUND: nat := 404
  const INTERNAL_ERROR: nat := 500

  /** The response FastAPI produces for an exception no handler catches. */
  const InternalServerError := Error(INTERNAL_ERROR, "Internal Server Error")
}

=== FILE: schema.dfy ===
/** Records stored by the backend (the ORM models) and the auto-increment
    tables that hold them. */
module Schema {

  /** Primary keys are SQL auto-increment integers, starting at 1. */
  type Id = nat

  /** Seconds since the epoch, as supplied by the injected clock. */
  type Timestamp = int

  /** A nullable column. */
  datatype Nullable<+T> = Null | Value(value: T)

  const RegularRole := "regular"
  const BusinessRole := "business"

  /** A registered account. `hashedPassword` is whatever the password hasher produced. */
  datatype User = User(email: string, hashedPassword: string, role: string)

  datatype Hotel = Hotel(
    name: string,
    address: string,
    description: Nullable<string>,
    rating: Nullable<real>,
    ownerId: Id)

  /** A room belongs to a hotel; its remaining columns are carried as one opaque value. */
  datatype Room = Room(hotelId: Id, details: string)

  /** A time-bounded, finitely stocked, dynamically priced offer for a room. */
  datatype RoomOffer = RoomOffer(
    roomId: Id,
    startDate: Timestamp,
    endDate: Timestamp,
    initialPrice: real,
    currentPrice: real,
    minPrice: real,
    popularityFactor: real,
    createdAt: Timestamp,
    available: int)

  /** One row of the append-only view log. */
  datatype OfferView = OfferView(offerId: Id, timestamp: Timestamp)

  /** One (user, room) pair of a user's favorites list. */
  datatype Favorite = Favorite(userId: Id, roomId: Id)

  /** Rows keyed by id, plus the next id the sequence will hand out. */
  datatype RawTable<T> = RawTable(rows: map<Id, T>, next: Id)

  /** A table whose counter is ahead of every id already used. */
  type Table<T> = t: RawTable<T> | 1 <= t.next && forall id :: id in t.rows ==> 1 <= id < t.next
    witness RawTable(map[], 1)

  function EmptyTable<T>(): (t: Table<T>)
    ensures t.rows == map[]
  {
    RawTable(map[], 1)
  }

  /** INSERT: the row gets a fresh id; every existing row keeps its id and value. */
  function Insert<T>(t: Table<T>, row: T): (r: (Table<T>, Id))
    ensures r.1 >= 1 && r.1 !in t.rows
    ensures r.0.rows == t.rows[r.1 := row]
    ensures |r.0.rows| == |t.rows| + 1
  {
    (RawTable(t.rows[t.next := row], t.next + 1), t.next)
  }

  /** UPDATE of an existing row: the key set does not change. */
  function Put<T>(t: Table<T>, id: Id, row: T): (r: Table<T>)
    requires id in t.rows
    ensures r.rows.Keys == t.rows.Keys
    ensures r.rows[id] == row
    ensures forall other :: other in t.rows && other != id ==> r.rows[other] == t.rows[other]
  {
    t.(rows := t.rows[id := row])
  }
}

=== FILE: store.dfy ===
/** The whole database as one immutable value, and the integrity constraints
    its schema and routes maintain.

    Each request handler runs in its own transaction; offers are read under a
    row lock when booked, so every request is modelled as one atomic step from
    one `Db` to the next.
 */
module Store {
  import opened Schema
  import opened Responses

  datatype Db = Db(
    users: Table<User>,
    hotels: Table<Hotel>,
    rooms: Table<Room>,
    offers: Table<RoomOffer>,
    favorites: seq<Favorite>,
    views: seq<OfferView>)

  /** The state after a request together with the route's answer. */
  datatype Reply<+T> = Reply(db: Db, result: Result<T>)

  /** The authenticated user that `get_current_user` resolved from the bearer token. */
  datatype Caller = Caller(id: Id, role: string)

  /** Shared by the offer and favorite routes. */
  const RoomNotFound := Error(NOT_FOUND, "Room not found")

  /** `get_current_user` yields a stored user: the caller's id is a users row with that role. */
  predicate Authenticated(db: Db, caller: Caller)
  {
    caller.id in db.users.rows && db.users.rows[caller.id].role == caller.role
  }

  function EmptyDb(): (db: Db)
    ensures db.users.rows == map[] && db.offers.rows == map[]
    ensures db.favorites == [] && db.views == []
  {
    Db(EmptyTable(), EmptyTable(), EmptyTable(), EmptyTable(), [], [])
  }

  /** Some stored user already has this email. */
  predicate EmailTaken(users: Table<User>, email: string)
  {
    exists id :: id in users.rows && users.rows[id].email == email
  }

  /** The `unique=True` constraint on the email column. */
  predicate UniqueEmails(users: Table<User>)
  {
    forall i, j :: i in users.rows && j in users.rows && i != j ==>
      users.rows[i].email != users.rows[j].email
  }

  predicate IsKnownRole(role: string)
  {
    role == RegularRole || role == BusinessRole
  }

  predicate KnownRoles(users: Table<User>)
  {
    forall id :: id in users.rows ==> IsKnownRole(users.rows[id].role)
  }

  /** The foreign key `hotels.owner_id -> users.id`. */
  predicate HotelsHaveOwners(db: Db)
  {
    forall id :: id in db.hotels.rows ==> db.hotels.rows[id].ownerId in db.users.rows
  }

  predicate RoomsHaveHotels(db: Db)
  {
    forall id :: id in db.rooms.rows ==> db.rooms.rows[id].hotelId in db.hotels.rows
  }

  predicate OffersHaveRooms(db: Db)
  {
    forall id :: id in db.offers.rows ==> db.offers.rows[id].roomId in db.rooms.rows
  }

  predicate ViewsHaveOffers(db: Db)
  {
    forall i :: 0 <= i < |db.views| ==> db.views[i].offerId in db.offers.rows
  }

  predicate FavoritesHaveRooms(db: Db)
  {
    forall i :: 0 <= i < |db.favorites| ==> db.favorites[i].roomId in db.rooms.rows
  }

  /** No two rows of the sequence are equal. */
  predicate NoDuplicates<T(==)>(s: seq<T>)
  {
    forall i, j :: 0 <= i < |s| && 0 <= j < |s| && i != j ==> s[i] != s[j]
  }

  /** Every constraint the routes keep, given that they start from a state that has them. */
  predicate Valid(db: Db)
  {
    && UniqueEmails(db.users)
    && KnownRoles(db.users)
    && HotelsHaveOwners(db)
    && RoomsHaveHotels(db)
    && OffersHaveRooms(db)
    && ViewsHaveOffers(db)
    && FavoritesHaveRooms(db)
    && NoDuplicates(db.favorites)
  }

  lemma EmptyDbIsValid()
    ensures Valid(EmptyDb())
  {
  }
}

=== FILE: users.dfy ===
/** Registration and login (routes/users.py).

    Email normalisation, password hashing, password verification and token
    issuance are foreign library calls; they are the abstract functions of a
    `Libraries` value.
 */
module Users {
  import opened Schema
  import opened Responses
  import opened Store

  /** The foreign calls the routes rely on: the email normaliser applied
      when the registration body is parsed into an `EmailStr`, the password
      hasher, its verifier, and the access-token issuer (`create_access_token`
      applied to a `sub` claim). */
  datatype Libraries = Libraries(
    normalizeEmail: string -> string,
    hash: string -> string,
    verify: (string, string) -> bool,
    issue: string -> string)

  /** The registration body as sent; its email is normalised when parsed. */
  datatype UserCreate = UserCreate(email: string, password: string, role: string)

  datatype UserResponse = UserResponse(id: Id, email: string, role: string)

  datatype TokenResponse = TokenResponse(accessToken: string, tokenType: string)

  const EmailRegistered := Error(BAD_REQUEST, "Email already registered")
  const InvalidRole := Error(BAD_REQUEST, "Invalid role")
  const InvalidCredentials := Error(UNAUTHORIZED, "Invalid credentials")

  /** POST /register. The email is checked and stored in its normalised form.
      The email check is made before the role check. */
  function CreateUser(db: Db, lib: Libraries, u: UserCreate): (r: Reply<UserResponse>)
    ensures var email := lib.normalizeEmail(u.email);
      && (EmailTaken(db.users, email) ==> r == Reply(db, Err(EmailRegistered)))
      && (!EmailTaken(db.users, email) && !IsKnownRole(u.role) ==> r == Reply(db, Err(InvalidRole)))
      && (r.result.Ok? <==> !EmailTaken(db.users, email) && IsKnownRole(u.role))
    ensures r.result.Ok? ==>
      var id := r.result.value.id;
      var email := lib.normalizeEmail(u.email);
      && r.result.status == OK
      && r.result.value == UserResponse(id, email, u.role)
      && id !in db.users.rows
      && r.db.users.rows == db.users.rows[id := User(email, lib.hash(u.password), u.role)]
      && |r.db.users.rows| == |db.users.rows| + 1
      && r.db == db.(users := r.db.users)
  {
    var email := lib.normalizeEmail(u.email);
    if EmailTaken(db.users, email) then
      Reply(db, Err(EmailRegistered))
    else if !IsKnownRole(u.role) then
      Reply(db, Err(InvalidRole))
    else
      var (users', id) := Insert(db.users, User(email, lib.hash(u.password), u.role));
      Reply(db.(users := users'), Ok(OK, UserResponse(id, email, u.role)))
  }

  /** Some user with this email has a stored hash the password verifies against. */
  predicate CredentialsMatch(users: Table<User>, lib: Libraries, email: string, password: string)
  {
    exists id :: id in users.rows && users.rows[id].email == email
      && lib.verify(password, users.rows[id].hashedPassword)
  }

  /** POST /login. */
  function Login(db: Db, lib: Libraries, email: string, password: string): (r: Result<TokenResponse>)
    ensures r.Ok? <==> CredentialsMatch(db.users, lib, email, password)
    ensures r.Err? ==> r.error == InvalidCredentials
    ensures !EmailTaken(db.users, email) ==> r == Err(InvalidCredentials)
    ensures r.Ok? ==> r.status == OK && r.value == TokenResponse(lib.issue(email), "bearer")
  {
    if CredentialsMatch(db.users, lib, email, password) then
      Ok(OK, TokenResponse(lib.issue(email), "bearer"))
    else
      Err(InvalidCredentials)
  }

  /** Registration keeps the unique-email and role-whitelist constraints. */
  lemma CreateUserKeepsUsersValid(db: Db, lib: Libraries, u: UserCreate)
    requires UniqueEmails(db.users) && KnownRoles(db.users)
    ensures UniqueEmails(CreateUser(db, lib, u).db.users)
    ensures KnownRoles(CreateUser(db, lib, u).db.users)
  {
    var r := CreateUser(db, lib, u);
    if r.result.Ok? {
      var id := r.result.value.id;
      forall i, j | i in r.db.users.rows && j in r.db.users.rows && i != j
        ensures r.db.users.rows[i].email != r.db.users.rows[j].email
      {
        if i == id {
          assert j in db.users.rows;
        } else if j == id {
          assert i in db.users.rows;
        }
      }
    }
  }

  /** Registering an address that normalises to one already registered (the
      same string, or one differing only in the case of its domain, say) is
      refused and stores nothing. */
  lemma SecondRegistrationRefused(db: Db, lib: Libraries, u: UserCreate, v: UserCreate)
    requires CreateUser(db, lib, u).result.Ok?
    requires lib.normalizeEmail(v.email) == lib.normalizeEmail(u.email)
    ensures CreateUser(CreateUser(db, lib, u).db, lib, v).result == Err(EmailRegistered)
  {
    var r := CreateUser(db, lib, u);
    assert r.db.users.rows[r.result.value.id].email == lib.normalizeEmail(u.email);
  }

  /** With unique emails, login succeeds exactly when the password verifies
      against the hash stored for that email's one user. */
  lemma LoginChecksTheStoredHash(db: Db, lib: Libraries, id: Id, password: string)
    requires UniqueEmails(db.users)
    requires id in db.users.rows
    ensures var user := db.users.rows[id];
      Login(db, lib, user.email, password).Ok? <==> lib.verify(password, user.hashedPassword)
  {
    var user := db.users.rows[id];
    if Login(db, lib, user.email, password).Ok? {
      var k :| k in db.users.rows && db.users.rows[k].email == user.email
        && lib.verify(password, db.users.rows[k].hashedPassword);
      assert k == id;
    }
  }

  /** Round trip: after a successful registration, logging in with the
      normalised email and the same password yields a bearer token for that
      email, provided the verifier accepts a password against its own hash. */
  lemma RegisterThenLogin(db: Db, lib: Libraries, u: UserCreate)
    requires lib.verify(u.password, lib.hash(u.password))
    requires CreateUser(db, lib, u).result.Ok?
    ensures var email := lib.normalizeEmail(u.email);
      Login(CreateUser(db, lib, u).db, lib, email, u.password)
        == Ok(OK, TokenResponse(lib.issue(email), "bearer"))
  {
    var r := CreateUser(db, lib, u);
    var id := r.result.value.id;
    assert r.db.users.rows[id].email == lib.normalizeEmail(u.email);
    assert r.db.users.rows[id].hashedPassword == lib.hash(u.password);
  }

  /** Login compares the email exactly as sent, without normalising it. So
      when normalisation changed the registered address, logging in with the
      address as originally typed is refused, unless some other account
      happens to hold that exact string. */
  lemma RawEmailLoginRefused(db: Db, lib: Libraries, u: UserCreate, password: string)
    requires CreateUser(db, lib, u).result.Ok?
    requires lib.normalizeEmail(u.email) != u.email
    requires !EmailTaken(db.users, u.email)
    ensures Login(CreateUser(db, lib, u).db, lib, u.email, password) == Err(InvalidCredentials)
  {
    var r := CreateUser(db, lib, u);
    assert !EmailTaken(r.db.users, u.email) by {
      forall id | id in r.db.users.rows ensures r.db.users.rows[id].email != u.email {
        if id in db.users.rows {
          assert r.db.users.rows[id] == db.users.rows[id];
        }
      }
    }
  }
}
